=== FILE: README.md ===
# express-script-injector, modelled in Dafny

`express-script-injector` is an Express middleware. It is configured once
with a base `path`, a default `script` and three flags (`debug`,
`enableCache`, `useRoute`). For each request it picks a script file, reads it
or takes it from its cache, wraps the contents in a
`<script id="injector-NAME" type="application/javascript">…</script>` tag,
stores that tag on the request as `req._script`, and calls `next`.

The model covers `index.js` apart from what "## Left out" lists:

- `JsString.dfy`: the JavaScript string operations the code relies on:
  `indexOf` with its position clamping, the module's `endsWith` helper,
  `split` on one character, and `pop`. Each is proved against an independent
  description, and `split` is proved to be inverted by `join`.
- `Configuration.dfy`: the configuration section, as a method that
  normalises the options step by step, as a value (see Left out for the
  in-place edit of the caller's object).
- `Resolution.dfy`: the per-request target and the script name derived from
  it, with their characterisations.
- `ScriptTag.dfy`: the tag builder and the parse that undoes it.
- `Injector.dfy`: two classes. `ScriptInjector` is the middleware closure; it
  owns the normalised configuration, the default script path and the cache.
  `Request` holds `req.path` and `req._script`. `Handle` and `GetScript`
  (`getScript`) are proved against the pure functions `Serve` and `Load`. The lemmas
  about `Serve` state the behaviour: exactly one continuation call, cache hits
  that read nothing, a single fallback to the default script, a cache that
  only grows, and the two worked examples.
- `PlainObjectCache.dfy`: the cache lookup as written on a `{}` object (see
  Findings).

The file system is a parameter `files: map<string, string>`. A path in the
map is a successful read with those contents; a path outside it is a failed
read, reported as `ReadError(path)`. The continuation is modelled as the list
of arguments it receives: `None` stands for `next()` and `Some(err)` for
`next(err)`. The synchronous throw when a route path cannot be split
(index.js:126-128) is the `thrown` outcome. A missing `req.path` stands for
that case, and it arises only when routes are used.

Some behaviour of the code is easy to misread; the model follows the code:

- With `useRoute` the target is `"/" + segment + ".js"`, rooted at the file
  system root (index.js:121). The option's comment (index.js:46-49) suggests a
  script matched to the route alongside `opts.script`, which lives under the
  base path; the code does not prefix the base path.
- The script name is the last `/`-segment of everything before the first `.`
  of the whole target (index.js:125), not the file name with its extension
  removed. When the base path has no `.`, the default name is the script's
  part before its first `.` (`Resolution.DefaultTargetName`). That is the file
  name without its extension only when the script holds a single `.`: script
  `main.min.js` is named `main`, and route `/a.b` is named `a`. A base path such as `./public/` makes
  every default name empty (`Resolution.RelativeBasePathNamesNothing`).
- A failed route derivation throws synchronously instead of reaching the
  continuation (index.js:126-128).
- After a failed route read, the fallback read of the default script keeps the
  route's name. The default script's contents are then tagged and cached
  under the route's name (`Injector.EndToEndRouteFallback`).

## Model

| member | source | states |
|---|---|---|
| `JsString.IndexOf` | index.js:153 | the result is -1 or the least index at or after the clamped position where the substring occurs; -1 exactly when it occurs nowhere from there |
| `JsString.EndsWith` | index.js:152-154 | true exactly when `suffix` is a suffix of `str`, with no length precondition |
| `JsString.Includes` | index.js:51 | `s.indexOf(c) > -1` holds exactly when the character occurs in `s` |
| `JsString.Split` | index.js:125 | a split always has at least one piece and no piece contains the separator |
| `JsString.JoinSplit` | index.js:125 | joining the pieces of a split with the separator gives back the original string |
| `JsString.SplitJoin` | index.js:125 | splitting a join of separator-free pieces gives back the pieces (the other direction of the round trip) |
| `JsString.SplitFirst` | index.js:125 | piece `[0]` is the prefix before the first separator, or the whole string when there is none |
| `JsString.SplitLast` | index.js:125 | the piece `pop()` returns is the suffix after the last separator, or the whole string when there is none |
| `JsString.SplitFirstUnique` | index.js:125 | piece `[0]` is the only separator-free prefix that is followed by a separator or by the end |
| `JsString.SplitLastUnique` | index.js:125 | the last piece is the only separator-free suffix that is preceded by a separator or by the start |
| `JsString.Last` | index.js:125 | `pop()` yields one of the pieces; `SplitLast` and `SplitLastUnique` state which one |
| `Configuration.Configure` | index.js:28-53 | fails with PathUndefined exactly when options or their path are missing or empty. Otherwise it fails exactly when the effective script (default `index.js`) contains `/`, so a defaulted script never fails. On success the path ends with `/`: unchanged if it already did, else with exactly one `/` appended. The script and flags are the given or defaulted values |
| `Configuration.EffectiveScript` | index.js:44 | the script in force is never empty: the given script when set, `index.js` otherwise. `Configure` states that construction keeps it and rejects it when it holds `/` |
| `Resolution.RouteSegment` | index.js:121 | the first route segment never contains `/` |
| `Resolution.Target` | index.js:120-124 | a request has no target exactly when routes are used and it has no path. `RoutePathIgnoredWithoutRoutes` and `RouteTargetAndName` state the target in each mode |
| `Resolution.RouteSegmentOf` | index.js:121 | for a route `/seg` or `/seg/…` the segment is exactly `seg` |
| `Resolution.Stem` | index.js:125 | `target.split('.')[0]` is the prefix before the first `.`, or all of the target |
| `Resolution.NameOf` | index.js:125 | the name contains neither `/` nor `.` |
| `Resolution.NameIsLastSegmentOfStem` | index.js:125 | the name is the last `/`-segment of the part of the target before its first `.` |
| `Resolution.StemUnique` | index.js:125 | that prefix is determined uniquely by the characterisation |
| `Resolution.NameUnique` | index.js:125 | the name is determined uniquely by the characterisation |
| `Resolution.RouteTargetName` | index.js:121-125 | the target `/seg.js` for a segment without `.` is named `seg` |
| `Resolution.DefaultTargetName` | index.js:70 | with a base path ending in `/` and free of `.`, the default target is named by the script's part before its first `.` |
| `Resolution.RelativeBasePathNamesNothing` | index.js:125 | with base path `./public/` the derived name is empty for every script |
| `Resolution.DefaultScript` | index.js:70 | `path + script`; `DefaultTargetName` states the name it yields and `RelativeBasePathNamesNothing` the empty name under a `.` base path |
| `ScriptTag.Tag` | index.js:102-104 | the tag is never empty, so a cached tag is always truthy |
| `ScriptTag.BodyOfTag` | index.js:102-104 | parsing a tag as a tag for the same name yields exactly the data |
| `ScriptTag.TagOfBody` | index.js:102-104 | anything that parses as a tag for a name is the tag built from that name and its contents |
| `Injector.ScriptInjector.constructor` | index.js:70 | the closure keeps the configuration, the default script is `path + script`, and the cache starts empty |
| `Injector.ScriptInjector.Handle` | index.js:119-140 | throw, continuation calls, reads, new cache and `req._script` are those of `Serve` on the old cache. Without a throw the continuation is called once, and the cache invariant is kept |
| `Injector.ScriptInjector.GetScript` | index.js:89-117 | continuation calls, reads, new cache and `req._script` are those of `Load`. A failed non-default read recurses once on the default script with the same name |
| `Injector.CacheHit` | index.js:130 | a hit is only ever an own, non-empty entry, so the cached string exists; `PlainObjectCache.AsWrittenAgreesOffPrototype` relates it to the lookup as written |
| `Injector.Load` | index.js:89-117 | the outcome of `getScript`; `LoadShape`, `FailedTargetFallsBack`, `FailedDefaultIsTerminal` and `ReadableTargetAttached` state its reads, calls and attachment |
| `Injector.Serve` | index.js:119-140 | the outcome of one request; `ThrowsOnlyWithoutRoutePath`, `ContinuationCalledOnce`, `CacheHitReadsNothing`, `AtMostOneRetry`, `CacheOnlyGrows` and `AttachedTagNamesRequest` state its properties |
| `Injector.LoadShape` | index.js:92-112 | one or two reads, the first of the target. The second read happens exactly when the target is not the default and cannot be read, and it reads the default script. There is exactly one call: `next()` iff a tag is attached, and that tag wraps the last file read; `next(err)` carries the default script's error and leaves the cache alone. The cache gains the tag only when caching is on |
| `Injector.ThrowsOnlyWithoutRoutePath` | index.js:119-128 | a request throws exactly when routes are used and it has no path |
| `Injector.ContinuationCalledOnce` | index.js:92-140 | without a throw the continuation is called exactly once; a throw calls, reads, attaches and caches nothing |
| `Injector.RoutePathIgnoredWithoutRoutes` | index.js:120-124 | with `useRoute` off the target is `path + script`, and the whole outcome does not depend on the request path |
| `Injector.RouteTargetAndName` | index.js:120-125 | with `useRoute` on, the request `/seg` or `/seg/…` for a segment without `.` targets `/seg.js` and is named `seg` |
| `Injector.CacheHitReadsNothing` | index.js:130-134 | with caching on and the name cached, the cached string is attached and `next()` is called; nothing is read and the cache is unchanged |
| `Injector.ReadableTargetAttached` | index.js:100-108 | a readable target is read once and its tag attached with `next()`, and it is cached under the name only when caching is on |
| `Injector.FailedTargetFallsBack` | index.js:93-99 | a failed non-default read is followed by exactly one read of the default script. Its result is tagged with the original name, or its error goes to the continuation |
| `Injector.FailedDefaultIsTerminal` | index.js:94-95 | a failed read of the default script reaches the continuation as its error; nothing is attached and the cache is unchanged |
| `Injector.AtMostOneRetry` | index.js:93-99 | a request reads at most twice, and a second read is always of the default script |
| `Injector.CacheOnlyGrows` | index.js:105-107 | no key leaves the cache. The cache changes only at the request's name, only to the attached tag and only with caching on. With caching off every request that does not throw reads a file |
| `Injector.AttachedTagNamesRequest` | index.js:102-133 | whatever is attached is a script tag for the request's name, and the cache remains a map from names to their own tags |
| `Injector.SecondRequestServedFromCache` | index.js:105-134 | with caching on, after a request that attached a tag, a later request with the same name reads nothing and gets the identical tag |
| `Injector.EndToEndDefaultScript` | index.js:119-140 | `{path: "/assets/", script: "main.js"}` with `/assets/main.js` holding `alert(1)` attaches the `injector-main` tag with `next()` on any route. With the file missing it calls `next(err)` and attaches nothing |
| `Injector.EndToEndRouteFallback` | index.js:92-125 | with routes and caching on, `/foo` reads `/foo.js` and then `/assets/main.js`, and tags and caches that file as `foo` |
| `PlainObjectCache.Get` | index.js:130 | a property read yields the own entry whenever one exists (except for `__proto__`), `undefined` exactly for a name that is neither an own entry nor a prototype member, and an inherited member exactly for a prototype name without an own entry (always for `__proto__`) |
| `PlainObjectCache.CacheHitAsWritten` | index.js:130 | `cache[name]` is truthy as a plain-object read, which needs an own entry or an inherited member; `AsWrittenAgreesOffPrototype` and `PrototypeNameHitsEmptyCache` state how it relates to `Injector.CacheHit` |
| `PlainObjectCache.AsWrittenAgreesOffPrototype` | index.js:130 | for names that are not `Object.prototype` members, the lookup as written is the own-entry test |
| `PlainObjectCache.PrototypeNameHitsEmptyCache` | index.js:130 | with script `constructor.js` and caching on, the lookup as written hits the empty cache and yields the inherited `Object` function, while the own-entry test misses |

## Left out

- `fs.readFile` and its asynchronous callback are replaced by the `files` map. File contents are strings; byte decoding is not modelled.
- The `debug` logger (index.js:62-68) only writes to the console. The `debug` flag is kept in the configuration and nothing reads it.
- Injector.ContinuationCalledOnce: holds only for a `next` that returns normally and for a read that does not throw synchronously; the `try`/`catch` blocks (index.js:90-116, 131-137) are not modelled. The first `try` holds only `debug(...)` and the `fs.readFile` call, so a synchronous throw there (a path holding a NUL character, say) calls `next(e)` at once with no fallback read. In the read callback (index.js:109-111) and in the cache-hit branch (index.js:135-137) a `next()` that throws is caught and followed by `next(e)`, a second continuation call. `next` belongs to the host framework and is modelled as a recorded call that returns.
- Concurrent requests are not modelled. Two requests that miss the cache for the same name at the same time each read the file and each write the cache slot, which is event-loop interleaving. Each request here runs to completion.
- Options are modelled as optional strings and booleans. JavaScript truthiness of non-string or non-boolean option values is left out, and so is a non-string `req.path`. Error message texts are left out.
- `Injector.Serve` and the classes look up own cache entries only. The inherited `Object.prototype` members that the as-written lookup also finds are modelled separately in `PlainObjectCache`. So is the silently ignored write of the key `__proto__`.
- Configuration.Configure: works on a value and returns a new configuration, so it does not capture that the source edits the caller's own options object in place (`opts = options || {}` at index.js:28, writes at index.js:39 and 43-46). Those writes are visible to the caller even when the script check then throws (index.js:51-53), so "fails before any other option is touched" cannot be stated. Nor does it capture that the request handler reads `opts.useRoute`, `opts.enableCache` and `opts.debug` live on every request (index.js:63, 105, 120, 130): a caller who changes them later changes the middleware's behaviour, while `defaultScript` stays fixed at index.js:70. The model snapshots all options at configuration time.
- The `res` argument is never used by the source and is not modelled.

## Findings

| source | as written | input that shows it | evidently intended | confidence | as-written member | corrected member |
|---|---|---|---|---|---|---|
| index.js:130 | `cache[name]` on a `{}` object is also truthy for names inherited from `Object.prototype`, so the middleware attaches a function instead of a tag and reads no file | `{path: "/assets/", script: "constructor.js", enableCache: true}`, first request (or `useRoute` with route `/toString`) | only tags stored by earlier requests are cache hits | high; not executed | `PlainObjectCache.PrototypeNameHitsEmptyCache` | `Injector.AttachedTagNamesRequest` |

=== FILE: Configuration.dfy ===
/**
 * The configuration section of `expressScriptInjector`: the options object is
 * checked, normalised and completed with defaults once, before any request.
 */
module Configuration {
  import opened Wrappers
  import opened JsString

  /**
   * The options object the caller passes. `path` and `script` are `None` when
   * the property is absent; the three flags are taken as booleans.
   */
  datatype Options = Options(
    path: Option<string>,
    script: Option<string>,
    debug: bool,
    enableCache: bool,
    useRoute: bool)

  /** The options after normalisation. */
  datatype Config = Config(
    path: string,
    script: string,
    debug: bool,
    enableCache: bool,
    useRoute: bool)

  /** The two errors construction throws. */
  datatype ConfigError = PathUndefined | ScriptHasPath(script: string)

  const DEFAULT_SCRIPT := "index.js"

  /** JavaScript truthiness of an optional string: present and non-empty. */
  predicate IsSet(s: Option<string>)
  {
    s.Some? && s.value != ""
  }

  /** The script name construction goes on with: the given one, or the default when unset or empty. */
  function EffectiveScript(o: Options): (r: string)
    ensures r != ""
    ensures r == DEFAULT_SCRIPT || o.script == Some(r)
  {
    if IsSet(o.script) then o.script.value else DEFAULT_SCRIPT
  }

  /**
   * Validates and normalises a copy of the options, step by step as the
   * construction code does. A missing options object counts as `{}`.
   */
  method Configure(options: Option<Options>) returns (r: Result<Config, ConfigError>)
    // a falsy path is rejected, and nothing else is
    ensures r == Failure(PathUndefined) <==> options.None? || !IsSet(options.value.path)
    // with a path, construction fails exactly when the effective script contains '/'
    ensures r.Failure? && r.error.ScriptHasPath? <==>
              options.Some? && IsSet(options.value.path) && '/' in EffectiveScript(options.value)
    ensures r.Failure? && r.error.ScriptHasPath? ==> r.error.script == EffectiveScript(options.value)
    // the defaulted script never fails
    ensures options.Some? && IsSet(options.value.path) && !IsSet(options.value.script) ==> r.Success?
    // the path ends with '/', unchanged if it did, with exactly one '/' appended otherwise
    ensures r.Success? ==> IsSuffix("/", r.value.path)
    ensures r.Success? ==> IsSuffix("/", options.value.path.value) ==> r.value.path == options.value.path.value
    ensures r.Success? ==> !IsSuffix("/", options.value.path.value) ==> r.value.path == options.value.path.value + "/"
    ensures r.Success? ==> r.value.script == EffectiveScript(options.value) && '/' !in r.value.script
    ensures r.Success? ==>
              && r.value.debug == options.value.debug
              && r.value.enableCache == options.value.enableCache
              && r.value.useRoute == options.value.useRoute
  {
    var opts := if options.Some? then options.value else Options(None, None, false, false, false);
    if !IsSet(opts.path) {
      return Failure(PathUndefined);
    }
    if !EndsWith(opts.path.value, "/") {
      opts := opts.(path := Some(opts.path.value + "/"));
    }
    // The boolean defaults (`if (!opts.debug) opts.debug = false` and the like)
    // leave a boolean unchanged.
    if !IsSet(opts.script) {
      opts := opts.(script := Some(DEFAULT_SCRIPT));
    }
    if Includes(opts.script.value, '/') {
      return Failure(ScriptHasPath(opts.script.value));
    }
    r := Success(Config(opts.path.value, opts.script.value, opts.debug, opts.enableCache, opts.useRoute));
  }
}

=== FILE: Injector.dfy ===
/**
 * The middleware `expressScriptInjector` returns: per request it resolves a
 * target, serves the tag from the cache or reads the file (falling back once
 * to the default script), attaches the tag to the request and calls the
 * continuation.
 *
 * The file system is a map from path to contents: a path outside the map is
 * a read that fails. The continuation is recorded as the list of arguments it
 * receives, `None` for `next()` and `Some(err)` for `next(err)`.
 */
module Injector {
  import opened Wrappers
  import opened JsString
  import opened Configuration
  import opened Resolution
  import opened ScriptTag

  /** The error a read of `path` hands to its callback. */
  datatype ReadError = ReadError(path: string)

  /**
   * All one request does: whether the derivation threw, the arguments the
   * continuation received, the paths read in order, the tag attached to the
   * request (`None`: left as it was), and the cache afterwards.
   */
  datatype Served = Served(
    thrown: bool,
    calls: seq<Option<ReadError>>,
    fileReads: seq<string>,
    attached: Option<string>,
    cache: map<string, string>)

  /** `cache[name]` is truthy: an entry holding a non-empty string. */
  predicate CacheHit(cache: map<string, string>, name: string)
    ensures CacheHit(cache, name) ==> name in cache
  {
    name in cache && cache[name] != ""
  }

  /** Every cached value is a script tag for the name it is cached under. */
  predicate CacheWellFormed(cache: map<string, string>)
  {
    forall k :: k in cache ==> TagBody(k, cache[k]).Some?
  }

  /** `getScript(target)` for a request whose name is `name`. */
  function Load(cfg: Config, cache: map<string, string>, name: string, target: string,
                files: map<string, string>): Served
    decreases if target == DefaultScript(cfg) then 0 else 1
  {
    if target in files then
      var tag := Tag(name, files[target]);
      Served(false, [None], [target], Some(tag), if cfg.enableCache then cache[name := tag] else cache)
    else if target == DefaultScript(cfg) then
      Served(false, [Some(ReadError(target))], [target], None, cache)
    else
      var s := Load(cfg, cache, name, DefaultScript(cfg), files);
      s.(fileReads := [target] + s.fileReads)
  }

  /** One request with path `reqPath` against the cache `cache`. */
  function Serve(cfg: Config, cache: map<string, string>, reqPath: Option<string>,
                 files: map<string, string>): Served
  {
    match Target(cfg, reqPath)
    case None => Served(true, [], [], None, cache)
    case Some(target) =>
      var name := NameOf(target);
      if cfg.enableCache && CacheHit(cache, name) then
        Served(false, [None], [], Some(cache[name]), cache)
      else
        Load(cfg, cache, name, target, files)
  }

  /** The parts of an Express request the middleware touches: `req.path` and `req._script`. */
  class Request {
    const path: Option<string>
    var script: Option<string>

    constructor (path: Option<string>)
      ensures this.path == path && script == None
    {
      this.path := path;
      script := None;
    }
  }

  /** The middleware closure: the normalised options, the default script and the cache it owns. */
  class ScriptInjector {
    const config: Config
    const defaultScript: string
    var cache: map<string, string>

    ghost predicate Valid()
      reads this
    {
      && IsSuffix("/", config.path) && '/' !in config.script
      && defaultScript == DefaultScript(config) && CacheWellFormed(cache)
    }

    /**
     * The closure made from a normalised configuration, with an empty cache:
     * a base path ending in '/' and a script without '/', as `Configure`
     * guarantees on success.
     */
    constructor (config: Config)
      requires IsSuffix("/", config.path) && '/' !in config.script
      ensures Valid() && this.config == config && cache == map[]
    {
      this.config := config;
      defaultScript := config.path + config.script;
      cache := map[];
    }

    /** Handles one request. `thrown` is the synchronous throw of a failed derivation. */
    method Handle(req: Request, files: map<string, string>)
      returns (thrown: bool, calls: seq<Option<ReadError>>, fileReads: seq<string>)
      requires Valid()
      modifies this, req
      ensures Valid()
      ensures thrown == Serve(config, old(cache), req.path, files).thrown
      ensures calls == Serve(config, old(cache), req.path, files).calls
      ensures fileReads == Serve(config, old(cache), req.path, files).fileReads
      ensures cache == Serve(config, old(cache), req.path, files).cache
      ensures var s := Serve(config, old(cache), req.path, files);
        req.script == (if s.attached.Some? then s.attached else old(req.script))
      ensures !thrown ==> |calls| == 1
    {
      ghost var served := Serve(config, cache, req.path, files);
      ContinuationCalledOnce(config, cache, req.path, files);
      thrown, calls, fileReads := false, [], [];
      var target := Target(config, req.path);
      if target.None? {
        thrown := true;
        assert served == Served(true, [], [], None, cache);
        return;
      }
      var name := NameOf(target.value);
      if config.enableCache && CacheHit(cache, name) {
        req.script := Some(cache[name]);
        calls := [None];
        assert served == Served(false, [None], [], req.script, cache);
      } else {
        assert served == Load(config, cache, name, target.value, files);
        calls, fileReads := GetScript(req, target.value, name, files);
      }
    }

    /** Reads `target`; on failure retries once with the default script, keeping `name`. */
    method GetScript(req: Request, target: string, name: string, files: map<string, string>)
      returns (calls: seq<Option<ReadError>>, fileReads: seq<string>)
      requires Valid()
      modifies this, req
      ensures Valid()
      ensures var s := Load(config, old(cache), name, target, files);
        && calls == s.calls && fileReads == s.fileReads && cache == s.cache
        && req.script == (if s.attached.Some? then s.attached else old(req.script))
      decreases if target == defaultScript then 0 else 1
    {
      fileReads := [target];
      if target in files {
        BodyOfTag(name, files[target]);
        req.script := Some(Tag(name, files[target]));
        if config.enableCache {
          cache := cache[name := req.script.value];
        }
        calls := [None];
      } else if target == defaultScript {
        calls := [Some(ReadError(target))];
      } else {
        var moreReads;
        calls, moreReads := GetScript(req, defaultScript, name, files);
        fileReads := fileReads + moreReads;
      }
    }
  }

  /** The shape every load has: one or two reads, the second of the default script, one call. */
  lemma LoadShape(cfg: Config, cache: map<string, string>, name: string, target: string,
                  files: map<string, string>)
    ensures var s := Load(cfg, cache, name, target, files);
      && !s.thrown && |s.calls| == 1
      && 1 <= |s.fileReads| <= 2 && s.fileReads[0] == target
      && (|s.fileReads| == 2 <==> target != DefaultScript(cfg) && target !in files)
      && (|s.fileReads| == 2 ==> s.fileReads[1] == DefaultScript(cfg))
      && (s.calls[0].None? <==> s.attached.Some?)
      && (s.attached.Some? ==>
            s.fileReads[|s.fileReads| - 1] in files &&
            s.attached == Some(Tag(name, files[s.fileReads[|s.fileReads| - 1]])))
      && (s.calls[0].Some? ==> s.calls[0] == Some(ReadError(DefaultScript(cfg))) && s.cache == cache)
      && s.cache == (if cfg.enableCache && s.attached.Some? then cache[name := s.attached.value] else cache)
  {
    if target !in files && target != DefaultScript(cfg) {
      var d := Load(cfg, cache, name, DefaultScript(cfg), files);
      assert d.fileReads == [DefaultScript(cfg)];
    }
  }

  /** The derivation throws exactly when routes are used and the request has no path. */
  lemma ThrowsOnlyWithoutRoutePath(cfg: Config, cache: map<string, string>, reqPath: Option<string>,
                                   files: map<string, string>)
    ensures Serve(cfg, cache, reqPath, files).thrown <==> cfg.useRoute && reqPath.None?
  {
    if Target(cfg, reqPath).Some? {
      var t := Target(cfg, reqPath).value;
      LoadShape(cfg, cache, NameOf(t), t, files);
    }
  }

  /**
   * Unless the derivation throws, the continuation is called exactly once; a
   * throw reads nothing, calls nothing and changes nothing.
   */
  lemma ContinuationCalledOnce(cfg: Config, cache: map<string, string>, reqPath: Option<string>,
                               files: map<string, string>)
    ensures var s := Serve(cfg, cache, reqPath, files);
      && (!s.thrown ==> |s.calls| == 1)
      && (s.thrown ==> s.calls == [] && s.fileReads == [] && s.attached.None? && s.cache == cache)
  {
    if Target(cfg, reqPath).Some? {
      var t := Target(cfg, reqPath).value;
      LoadShape(cfg, cache, NameOf(t), t, files);
    }
  }

  /** Without routes, the request path makes no difference to anything the request does. */
  lemma RoutePathIgnoredWithoutRoutes(cfg: Config, cache: map<string, string>,
                                      p1: Option<string>, p2: Option<string>, files: map<string, string>)
    requires !cfg.useRoute
    ensures Target(cfg, p1) == Some(DefaultScript(cfg))
    ensures Serve(cfg, cache, p1, files) == Serve(cfg, cache, p2, files)
  {
  }

  /**
   * With routes, the request "/seg/..." asks for "/seg.js" and is named `seg`
   * when `seg` has no '.'.
   */
  lemma RouteTargetAndName(cfg: Config, seg: string, rest: Option<string>)
    requires cfg.useRoute && '/' !in seg && '.' !in seg
    ensures var reqPath := if rest.None? then "/" + seg else "/" + seg + "/" + rest.value;
      && Target(cfg, Some(reqPath)) == Some("/" + seg + ".js")
      && NameOf("/" + seg + ".js") == seg
  {
    RouteSegmentOf(seg, rest);
    RouteTargetName(seg);
    assert "/" + (seg + ".js") == "/" + seg + ".js";
  }

  /** A cache hit attaches the cached string, calls `next()` and reads nothing. */
  lemma CacheHitReadsNothing(cfg: Config, cache: map<string, string>, reqPath: Option<string>,
                             files: map<string, string>, target: string)
    requires Target(cfg, reqPath) == Some(target)
    requires cfg.enableCache && CacheHit(cache, NameOf(target))
    ensures var s := Serve(cfg, cache, reqPath, files);
      && s.fileReads == [] && s.calls == [None]
      && s.attached == Some(cache[NameOf(target)]) && s.cache == cache
  {
  }

  /** A readable target is read once and its tag attached, and cached when caching is on. */
  lemma ReadableTargetAttached(cfg: Config, cache: map<string, string>, reqPath: Option<string>,
                               files: map<string, string>, target: string)
    requires Target(cfg, reqPath) == Some(target)
    requires !(cfg.enableCache && CacheHit(cache, NameOf(target)))
    requires target in files
    ensures var s := Serve(cfg, cache, reqPath, files);
      && s.fileReads == [target] && s.calls == [None]
      && s.attached == Some(Tag(NameOf(target), files[target]))
      && s.cache == (if cfg.enableCache then cache[NameOf(target) := s.attached.value] else cache)
  {
  }

  /**
   * A failed read of a target other than the default script is followed by
   * exactly one read of the default script, whose outcome is delivered under
   * the name of the original target.
   */
  lemma FailedTargetFallsBack(cfg: Config, cache: map<string, string>, reqPath: Option<string>,
                              files: map<string, string>, target: string)
    requires Target(cfg, reqPath) == Some(target)
    requires !(cfg.enableCache && CacheHit(cache, NameOf(target)))
    requires target !in files && target != DefaultScript(cfg)
    ensures var s := Serve(cfg, cache, reqPath, files);
      && s.fileReads == [target, DefaultScript(cfg)]
      && (DefaultScript(cfg) in files ==>
            s.calls == [None] && s.attached == Some(Tag(NameOf(target), files[DefaultScript(cfg)])))
      && (DefaultScript(cfg) !in files ==>
            s.calls == [Some(ReadError(DefaultScript(cfg)))] && s.attached.None? && s.cache == cache)
  {
    LoadShape(cfg, cache, NameOf(target), target, files);
  }

  /** A failed read of the default script is delivered to the continuation and nothing else happens. */
  lemma FailedDefaultIsTerminal(cfg: Config, cache: map<string, string>, reqPath: Option<string>,
                                files: map<string, string>)
    requires Target(cfg, reqPath) == Some(DefaultScript(cfg))
    requires !(cfg.enableCache && CacheHit(cache, NameOf(DefaultScript(cfg))))
    requires DefaultScript(cfg) !in files
    ensures var s := Serve(cfg, cache, reqPath, files);
      && s.fileReads == [DefaultScript(cfg)]
      && s.calls == [Some(ReadError(DefaultScript(cfg)))]
      && s.attached.None? && s.cache == cache
  {
  }

  /** No request reads more than twice, and a second read is always of the default script. */
  lemma AtMostOneRetry(cfg: Config, cache: map<string, string>, reqPath: Option<string>,
                       files: map<string, string>)
    ensures var s := Serve(cfg, cache, reqPath, files);
      |s.fileReads| <= 2 && (|s.fileReads| == 2 ==> s.fileReads[1] == DefaultScript(cfg))
  {
    if Target(cfg, reqPath).Some? {
      var t := Target(cfg, reqPath).value;
      LoadShape(cfg, cache, NameOf(t), t, files);
    }
  }

  /**
   * The cache only grows, only at the request's name, only with the tag just
   * attached, and only when caching is on; with caching off every request
   * that does not throw reads a file.
   */
  lemma CacheOnlyGrows(cfg: Config, cache: map<string, string>, reqPath: Option<string>,
                       files: map<string, string>)
    ensures cache.Keys <= Serve(cfg, cache, reqPath, files).cache.Keys
    ensures var s := Serve(cfg, cache, reqPath, files);
      s.cache == cache || (cfg.enableCache && s.attached.Some? && Target(cfg, reqPath).Some? &&
                           s.cache == cache[NameOf(Target(cfg, reqPath).value) := s.attached.value])
    ensures var s := Serve(cfg, cache, reqPath, files);
      !cfg.enableCache ==> s.cache == cache && (!s.thrown ==> |s.fileReads| >= 1)
  {
    if Target(cfg, reqPath).Some? {
      var t := Target(cfg, reqPath).value;
      LoadShape(cfg, cache, NameOf(t), t, files);
    }
  }

  /**
   * Whatever a request attaches is a script tag for the request's name, and
   * the cache stays a map from names to their tags.
   */
  lemma AttachedTagNamesRequest(cfg: Config, cache: map<string, string>, reqPath: Option<string>,
                                files: map<string, string>)
    requires CacheWellFormed(cache)
    ensures var s := Serve(cfg, cache, reqPath, files);
      && CacheWellFormed(s.cache)
      && (s.attached.Some? ==> Target(cfg, reqPath).Some? &&
                               TagBody(NameOf(Target(cfg, reqPath).value), s.attached.value).Some?)
  {
    if Target(cfg, reqPath).Some? {
      var t := Target(cfg, reqPath).value;
      LoadShape(cfg, cache, NameOf(t), t, files);
      if t in files {
        BodyOfTag(NameOf(t), files[t]);
      }
      if DefaultScript(cfg) in files {
        BodyOfTag(NameOf(t), files[DefaultScript(cfg)]);
      }
    }
  }

  /**
   * With caching on, once a request has attached a tag, any later request
   * resolving to the same name reads nothing and gets the same tag, whatever
   * the files then hold.
   */
  lemma SecondRequestServedFromCache(cfg: Config, cache: map<string, string>,
                                     p1: Option<string>, files1: map<string, string>,
                                     p2: Option<string>, files2: map<string, string>)
    requires cfg.enableCache
    requires Serve(cfg, cache, p1, files1).attached.Some?
    requires Target(cfg, p2).Some? && NameOf(Target(cfg, p2).value) == NameOf(Target(cfg, p1).value)
    ensures var s1 := Serve(cfg, cache, p1, files1);
      var s2 := Serve(cfg, s1.cache, p2, files2);
      s2.fileReads == [] && s2.calls == [None] && s2.attached == s1.attached && s2.cache == s1.cache
  {
    var t1 := Target(cfg, p1).value;
    LoadShape(cfg, cache, NameOf(t1), t1, files1);
  }

  /**
   * {path: "/assets/", script: "main.js"}: any route, "/assets/main.js"
   * holding "alert(1)" gives `next()` and the tag named "main"; with the file
   * missing, `next(err)` and no tag.
   */
  lemma EndToEndDefaultScript(reqPath: Option<string>)
    ensures var cfg := Config("/assets/", "main.js", false, false, false);
      && Serve(cfg, map[], reqPath, map["/assets/main.js" := "alert(1)"]) ==
         Served(false, [None], ["/assets/main.js"],
                Some("<script id=\"injector-main\" type=\"application/javascript\">alert(1)</script>"), map[])
      && Serve(cfg, map[], reqPath, map[]) ==
         Served(false, [Some(ReadError("/assets/main.js"))], ["/assets/main.js"], None, map[])
  {
    var cfg := Config("/assets/", "main.js", false, false, false);
    assert DefaultScript(cfg) == "/assets/main.js";
    DefaultTargetName("/assets/", "main.js");
    StemUnique("main.js", "main");
    assert NameOf("/assets/main.js") == "main";
    MainTagText();
  }

  /**
   * The same configuration with routes on: the request "/foo" first reads
   * "/foo.js" at the file-system root; that read failing, it reads
   * "/assets/main.js" and attaches that file under the name "foo".
   */
  lemma EndToEndRouteFallback()
    ensures var cfg := Config("/assets/", "main.js", false, true, true);
      var s := Serve(cfg, map[], Some("/foo"), map["/assets/main.js" := "alert(1)"]);
      && s.fileReads == ["/foo.js", "/assets/main.js"]
      && s.calls == [None]
      && s.attached == Some(Tag("foo", "alert(1)"))
      && s.cache == map["foo" := Tag("foo", "alert(1)")]
  {
    var cfg := Config("/assets/", "main.js", false, true, true);
    var files := map["/assets/main.js" := "alert(1)"];
    FooRoute(cfg);
    FooFallbackLoad(cfg, files);
  }

  /** The request "/foo" targets "/foo.js", named "foo". */
  lemma FooRoute(cfg: Config)
    requires cfg.useRoute
    ensures Target(cfg, Some("/foo")) == Some("/foo.js") && NameOf("/foo.js") == "foo"
  {
    RouteTargetAndName(cfg, "foo", None);
    assert "/" + "foo" + ".js" == "/foo.js" && "/" + "foo" == "/foo";
  }

  /**
   * Loading "/foo.js" for "foo" when only "/assets/main.js" exists. The literals
   * come in through parameters pinned by `requires`, which keeps the functions
   * applied to them from unfolding eagerly.
   */
  lemma FooFallbackLoad(cfg: Config, files: map<string, string>)
    requires cfg == Config("/assets/", "main.js", false, true, true)
    requires files == map["/assets/main.js" := "alert(1)"]
    ensures Load(cfg, map[], "foo", "/foo.js", files) ==
            Served(false, [None], ["/foo.js", "/assets/main.js"], Some(Tag("foo", "alert(1)")),
                   map["foo" := Tag("foo", "alert(1)")])
  {
    assert DefaultScript(cfg) == "/assets/main.js";
    assert "/foo.js" !in files;
    var d := Load(cfg, map[], "foo", "/assets/main.js", files);
    assert d == Served(false, [None], ["/assets/main.js"], Some(Tag("foo", "alert(1)")),
                       map["foo" := Tag("foo", "alert(1)")]);
  }

  /** The tag of the first example, written out. */
  lemma MainTagText()
    ensures Tag("main", "alert(1)") ==
            "<script id=\"injector-main\" type=\"application/javascript\">alert(1)</script>"
  {
    assert Header("main") == "<script id=\"injector-main\" type=\"application/javascript\">";
  }
}

=== FILE: JsString.dfy ===
/**
 * The JavaScript string operations the middleware relies on, stated on
 * `seq<char>`: `String.prototype.indexOf`, the module's own `endsWith` helper,
 * `String.prototype.split` with a one-character separator, and `Array.prototype.pop`
 * used only for its result.
 */
module JsString {

  /** `sub` occurs in `s` starting at index `k`. */
  predicate MatchAt(s: string, sub: string, k: int)
  {
    0 <= k && k + |sub| <= |s| && s[k..k + |sub|] == sub
  }

  /** `s` ends with `suffix`, stated without `indexOf`. */
  predicate IsSuffix(suffix: string, s: string)
  {
    |suffix| <= |s| && s[|s| - |suffix|..] == suffix
  }

  /** `indexOf`'s clamping of its position argument to `[0, |s|]`. */
  function ClampPosition(position: int, len: nat): (k: nat)
    ensures k <= len
  {
    if position < 0 then 0 else if position > len then len else position
  }

  /** The scan behind `indexOf`: the first match at or after `k`, or -1. */
  function IndexOfFrom(s: string, sub: string, k: nat): (r: int)
    requires k <= |s|
    ensures r == -1 || (k <= r && MatchAt(s, sub, r))
    ensures forall j :: k <= j && (r == -1 || j < r) ==> !MatchAt(s, sub, j)
    decreases |s| - k
  {
    if MatchAt(s, sub, k) then k
    else if k == |s| then -1
    else IndexOfFrom(s, sub, k + 1)
  }

  /** `s.indexOf(sub, position)`: the least index at or after the clamped position where `sub` occurs, or -1. */
  function IndexOf(s: string, sub: string, position: int): (r: int)
    ensures r == -1 || (ClampPosition(position, |s|) <= r && MatchAt(s, sub, r))
    ensures forall j :: ClampPosition(position, |s|) <= j && (r == -1 || j < r) ==> !MatchAt(s, sub, j)
  {
    IndexOfFrom(s, sub, ClampPosition(position, |s|))
  }

  /** index.js:152-154: `str.indexOf(suffix, str.length - suffix.length) !== -1`. */
  function EndsWith(str: string, suffix: string): (b: bool)
    ensures b <==> IsSuffix(suffix, str)
  {
    var r := IndexOf(str, suffix, |str| - |suffix|);
    assert IsSuffix(suffix, str) ==> MatchAt(str, suffix, |str| - |suffix|);
    r != -1
  }

  /** `s.indexOf(c) > -1` for a one-character string `c`: true exactly when `c` occurs in `s`. */
  function Includes(s: string, c: char): (b: bool)
    ensures b <==> c in s
  {
    var r := IndexOf(s, [c], 0);
    assert forall i :: 0 <= i < |s| && s[i] == c ==> MatchAt(s, [c], i);
    assert r > -1 ==> s[r] == s[r..r + 1][0] == c;
    r > -1
  }

  /**
   * `s.split(sep)` for a one-character separator: the maximal runs of `s`
   * between occurrences of `sep`, so never empty (`"".split(".")` is `[""]`).
   */
  function Split(s: string, sep: char): (parts: seq<string>)
    ensures |parts| >= 1
    ensures forall i :: 0 <= i < |parts| ==> sep !in parts[i]
    decreases |s|
  {
    if s == [] then [[]]
    else
      var rest := Split(s[1..], sep);
      if s[0] == sep then [[]] + rest
      else [[s[0]] + rest[0]] + rest[1..]
  }

  /** `parts.join(sep)`, the inverse of `Split`. */
  function Join(parts: seq<string>, sep: char): string
    requires |parts| >= 1
  {
    if |parts| == 1 then parts[0] else parts[0] + [sep] + Join(parts[1..], sep)
  }

  /** The value `parts.pop()` returns on a non-empty array. */
  function Last(parts: seq<string>): (r: string)
    requires |parts| >= 1
    ensures r in parts
  {
    parts[|parts| - 1]
  }

  lemma {:induction false} JoinConsFirst(x: string, parts: seq<string>, sep: char)
    requires |parts| >= 1
    ensures Join([x + parts[0]] + parts[1..], sep) == x + Join(parts, sep)
  {
    var ps := [x + parts[0]] + parts[1..];
    assert ps[1..] == parts[1..];
    if |parts| > 1 {
      calc {
        Join(ps, sep);
        (x + parts[0]) + [sep] + Join(parts[1..], sep);
        x + (parts[0] + [sep] + Join(parts[1..], sep));
      }
    }
  }

  /** Joining the pieces of a split with the same separator gives back the string. */
  lemma {:induction false} JoinSplit(s: string, sep: char)
    ensures Join(Split(s, sep), sep) == s
    decreases |s|
  {
    if s != [] {
      var rest := Split(s[1..], sep);
      JoinSplit(s[1..], sep);
      if s[0] == sep {
        assert ([[]] + rest)[1..] == rest;
        assert Join([[]] + rest, sep) == [sep] + Join(rest, sep);
      } else {
        JoinConsFirst([s[0]], rest, sep);
      }
      assert s == [s[0]] + s[1..];
    }
  }

  /** A string free of `sep` splits into itself alone. */
  lemma {:induction false} SplitWithoutSeparator(s: string, sep: char)
    requires sep !in s
    ensures Split(s, sep) == [s]
    decreases |s|
  {
    if s != [] {
      SplitWithoutSeparator(s[1..], sep);
      assert s == [s[0]] + s[1..];
    }
  }

  /** Splitting `p + [sep] + t` where `p` has no `sep` puts `p` in front of the pieces of `t`. */
  lemma {:induction false} SplitAfterPiece(p: string, t: string, sep: char)
    requires sep !in p
    ensures Split(p + [sep] + t, sep) == [p] + Split(t, sep)
    decreases |p|
  {
    var s := p + [sep] + t;
    if p == [] {
      assert s[1..] == t;
    } else {
      assert s[1..] == p[1..] + [sep] + t;
      SplitAfterPiece(p[1..], t, sep);
      assert [p[0]] + p[1..] == p;
    }
  }

  /** Splitting a join of `sep`-free pieces gives back the pieces. */
  lemma {:induction false} SplitJoin(parts: seq<string>, sep: char)
    requires |parts| >= 1
    requires forall i :: 0 <= i < |parts| ==> sep !in parts[i]
    ensures Split(Join(parts, sep), sep) == parts
    decreases |parts|
  {
    if |parts| == 1 {
      SplitWithoutSeparator(parts[0], sep);
    } else {
      SplitJoin(parts[1..], sep);
      SplitAfterPiece(parts[0], Join(parts[1..], sep), sep);
      assert [parts[0]] + parts[1..] == parts;
    }
  }

  /**
   * The first piece of a split is the part of `s` before the first `sep`
   * (all of `s` when there is none).
   */
  lemma {:induction false} SplitFirst(s: string, sep: char)
    ensures Split(s, sep)[0] <= s
    ensures sep !in Split(s, sep)[0]
    ensures |Split(s, sep)[0]| < |s| ==> s[|Split(s, sep)[0]|] == sep
    decreases |s|
  {
    if s != [] && s[0] != sep {
      SplitFirst(s[1..], sep);
    }
  }

  /**
   * The last piece of a split (what `pop()` returns) is the part of `s` after
   * the last `sep` (all of `s` when there is none).
   */
  lemma {:induction false} SplitLast(s: string, sep: char)
    ensures IsSuffix(Last(Split(s, sep)), s)
    ensures sep !in Last(Split(s, sep))
    ensures |Last(Split(s, sep))| < |s| ==> s[|s| - |Last(Split(s, sep))| - 1] == sep
    decreases |s|
  {
    if s != [] {
      SplitLast(s[1..], sep);
      if s[0] != sep && |Split(s[1..], sep)| == 1 {
        SplitLastWhole(s, sep);
      } else {
        SplitLastOfTail(s, sep);
      }
    }
  }

  /** When the tail splits into one piece and `s` does not start with `sep`, the last piece is `s`. */
  lemma SplitLastWhole(s: string, sep: char)
    requires s != [] && s[0] != sep && |Split(s[1..], sep)| == 1
    ensures Last(Split(s, sep)) == s
  {
    var rest := Split(s[1..], sep);
    JoinSplit(s[1..], sep);
    assert rest[0] == Join(rest, sep) == s[1..];
    assert Split(s, sep) == [[s[0]] + rest[0]];
    assert [s[0]] + s[1..] == s;
  }

  /** Otherwise the last piece of `s` is the last piece of its tail. */
  lemma SplitLastOfTail(s: string, sep: char)
    requires s != [] && !(s[0] != sep && |Split(s[1..], sep)| == 1)
    requires IsSuffix(Last(Split(s[1..], sep)), s[1..])
    requires sep !in Last(Split(s[1..], sep))
    requires |Last(Split(s[1..], sep))| < |s| - 1 ==>
               s[1..][|s| - 1 - |Last(Split(s[1..], sep))| - 1] == sep
    ensures IsSuffix(Last(Split(s, sep)), s)
    ensures |Last(Split(s, sep))| < |s| ==> s[|s| - |Last(Split(s, sep))| - 1] == sep
  {
    var rest := Split(s[1..], sep);
    var l := Last(rest);
    if s[0] == sep {
      assert Split(s, sep) == [[]] + rest;
    } else {
      assert |rest| > 1 && Split(s, sep) == [[s[0]] + rest[0]] + rest[1..];
    }
    assert Last(Split(s, sep)) == l;
    SuffixOfTail(l, s);
    if |l| == |s| - 1 && s[0] != sep {
      SplitWithoutSeparator(s[1..], sep);
    }
  }

  /** A suffix of `s[1..]` is a suffix of `s`, at the same distance from the end. */
  lemma SuffixOfTail(l: string, s: string)
    requires s != [] && IsSuffix(l, s[1..])
    ensures IsSuffix(l, s)
    ensures |l| < |s| - 1 ==> s[|s| - |l| - 1] == s[1..][|s| - 1 - |l| - 1]
    ensures |l| == |s| - 1 ==> s[|s| - |l| - 1] == s[0] && l == s[1..]
  {
    assert s[|s| - |l|..] == s[1..][|s| - 1 - |l|..];
  }

  /** The first piece is the only `sep`-free prefix that ends at a `sep` or at the end of `s`. */
  lemma SplitFirstUnique(s: string, sep: char, h: string)
    requires h <= s && sep !in h
    requires |h| < |s| ==> s[|h|] == sep
    ensures Split(s, sep)[0] == h
  {
    SplitFirst(s, sep);
  }

  /** The last piece is the only `sep`-free suffix that starts after a `sep` or at the start of `s`. */
  lemma SplitLastUnique(s: string, sep: char, l: string)
    requires IsSuffix(l, s) && sep !in l
    requires |l| < |s| ==> s[|s| - |l| - 1] == sep
    ensures Last(Split(s, sep)) == l
  {
    SplitLast(s, sep);
  }
}

=== FILE: PlainObjectCache.dfy ===
/**
 * The cache is a plain object created with `{}`, so the lookup `cache[name]`
 * also finds the members every object inherits from `Object.prototype`.
 * This module models that lookup as written; the rest of the model looks up
 * own entries only (`Injector.CacheHit`).
 */
module PlainObjectCache {
  import opened Configuration
  import opened Resolution
  import opened Injector

  /** What a property read yields, as far as its truthiness and its type go. */
  datatype JsValue = Undefined | Str(s: string) | Inherited(member: string)

  /** The members of `Object.prototype`: functions, and the prototype itself under `__proto__`. */
  const PROTOTYPE_MEMBERS: set<string> := {
    "constructor", "hasOwnProperty", "isPrototypeOf", "propertyIsEnumerable",
    "toLocaleString", "toString", "valueOf", "__defineGetter__", "__defineSetter__",
    "__lookupGetter__", "__lookupSetter__", "__proto__"
  }

  /**
   * `cache[key]` on an object whose own string entries are `cache`. An
   * assignment to `__proto__` never makes an own entry, so that key always
   * reads the prototype.
   */
  function Get(cache: map<string, string>, key: string): (v: JsValue)
    ensures v.Str? ==> key in cache && v.s == cache[key]
    ensures v.Inherited? <==> key in PROTOTYPE_MEMBERS && (key !in cache || key == "__proto__")
    ensures key in cache && key != "__proto__" ==> v == Str(cache[key])
    ensures v.Undefined? <==> key !in cache && key !in PROTOTYPE_MEMBERS
  {
    if key == "__proto__" then Inherited(key)
    else if key in cache then Str(cache[key])
    else if key in PROTOTYPE_MEMBERS then Inherited(key)
    else Undefined
  }

  predicate Truthy(v: JsValue)
  {
    match v
    case Undefined => false
    case Str(s) => s != ""
    case Inherited(_) => true
  }

  /** The cache test at index.js:130 as written: `cache[name]` is truthy. */
  predicate CacheHitAsWritten(cache: map<string, string>, name: string)
    // a hit needs an own entry or an inherited member
    ensures CacheHitAsWritten(cache, name) ==> name in cache || name in PROTOTYPE_MEMBERS
  {
    Truthy(Get(cache, name))
  }

  /** Away from the inherited member names, the test as written is the own-entry test. */
  lemma AsWrittenAgreesOffPrototype(cache: map<string, string>, name: string)
    requires name !in PROTOTYPE_MEMBERS
    ensures CacheHitAsWritten(cache, name) <==> CacheHit(cache, name)
  {
  }

  /**
   * With {path: "/assets/", script: "constructor.js", enableCache: true} the
   * first request already hits the empty cache: it would attach the inherited
   * `Object` function, which is no script tag, and read no file.
   */
  lemma PrototypeNameHitsEmptyCache(cfg: Config)
    requires cfg == Config("/assets/", "constructor.js", false, true, false)
    ensures NameOf(DefaultScript(cfg)) == "constructor"
    ensures CacheHitAsWritten(map[], NameOf(DefaultScript(cfg)))
    ensures Get(map[], NameOf(DefaultScript(cfg))) == Inherited("constructor")
    ensures !CacheHit(map[], NameOf(DefaultScript(cfg)))
  {
    ConstructorName(cfg.path, cfg.script);
    assert "constructor" != "__proto__" && "constructor" in PROTOTYPE_MEMBERS;
  }

  /**
   * The default script "constructor.js" under "/assets/" is named "constructor".
   * The literals come in through parameters pinned by `requires`, which keeps
   * the functions applied to them from unfolding eagerly.
   */
  lemma ConstructorName(path: string, script: string)
    requires path == "/assets/" && script == "constructor.js"
    ensures NameOf(path + script) == "constructor"
  {
    DefaultTargetName(path, script);
    StemUnique(script, "constructor");
  }
}

=== FILE: Resolution.dfy ===
/**
 * Per-request resolution: which file a request asks for, and the name its
 * script is tagged and cached under. Both are single expressions of the
 * request path and the configuration.
 */
module Resolution {
  import opened Wrappers
  import opened JsString
  import opened Configuration

  /** The default script's full path, `opts.path + opts.script`. */
  function DefaultScript(cfg: Config): (r: string)
  {
    cfg.path + cfg.script
  }

  /**
   * `req.path.split('/')[1]`; when the route has no second piece the element
   * is `undefined`, which string concatenation turns into "undefined".
   */
  function RouteSegment(reqPath: string): (seg: string)
    ensures '/' !in seg
  {
    var parts := Split(reqPath, '/');
    if |parts| > 1 then parts[1] else "undefined"
  }

  /**
   * The file a request asks for: the first route segment plus ".js", rooted at
   * "/" and not under the base path, when routes are used; the default script
   * otherwise. `None` when routes are used and the request has no path, where
   * the derivation throws.
   */
  function Target(cfg: Config, reqPath: Option<string>): (r: Option<string>)
    // only a route lookup without a request path has no target
    ensures r.None? <==> cfg.useRoute && reqPath.None?
  {
    if cfg.useRoute then
      if reqPath.None? then None else Some("/" + (RouteSegment(reqPath.value) + ".js"))
    else
      Some(DefaultScript(cfg))
  }

  /** `stem` is the part of `target` before its first '.', or all of it when it has none. */
  predicate IsStem(stem: string, target: string)
  {
    stem <= target && '.' !in stem && (|stem| < |target| ==> target[|stem|] == '.')
  }

  /** `seg` is the part of `s` after its last '/', or all of it when it has none. */
  predicate IsLastSegment(seg: string, s: string)
  {
    IsSuffix(seg, s) && '/' !in seg && (|seg| < |s| ==> s[|s| - |seg| - 1] == '/')
  }

  /** `target.split('.')[0]` */
  function Stem(target: string): (stem: string)
    ensures IsStem(stem, target)
  {
    SplitFirst(target, '.');
    Split(target, '.')[0]
  }

  /** `target.split('.')[0].split('/').pop()`: the name a script is tagged and cached under. */
  function NameOf(target: string): (name: string)
    ensures '/' !in name && '.' !in name
  {
    SplitLast(Stem(target), '/');
    Last(Split(Stem(target), '/'))
  }

  /** The name is the last '/'-separated segment of the part of the target before its first '.'. */
  lemma NameIsLastSegmentOfStem(target: string)
    ensures IsLastSegment(NameOf(target), Stem(target))
  {
    SplitLast(Stem(target), '/');
  }

  /** The stem is the only string with the `IsStem` property. */
  lemma StemUnique(target: string, stem: string)
    requires IsStem(stem, target)
    ensures Stem(target) == stem
  {
    SplitFirstUnique(target, '.', stem);
  }

  /** The name is the only string with the `IsLastSegment` property of the stem. */
  lemma NameUnique(target: string, name: string)
    requires IsLastSegment(name, Stem(target))
    ensures NameOf(target) == name
  {
    SplitLastUnique(Stem(target), '/', name);
  }

  /** A route "/seg" or "/seg/..." has `seg` as its first segment. */
  lemma RouteSegmentOf(seg: string, rest: Option<string>)
    requires '/' !in seg
    ensures rest.None? ==> RouteSegment("/" + seg) == seg
    ensures rest.Some? ==> RouteSegment("/" + seg + "/" + rest.value) == seg
  {
    if rest.None? {
      SplitAfterPiece([], seg, '/');
      SplitWithoutSeparator(seg, '/');
      assert [] + ['/'] + seg == "/" + seg;
    } else {
      SplitAfterPiece([], seg + "/" + rest.value, '/');
      SplitAfterPiece(seg, rest.value, '/');
      assert [] + ['/'] + (seg + "/" + rest.value) == "/" + seg + "/" + rest.value;
    }
  }

  /** The target "/seg.js" built from a route segment without '.' is named `seg`. */
  lemma RouteTargetName(seg: string)
    requires '/' !in seg && '.' !in seg
    ensures NameOf("/" + (seg + ".js")) == seg
  {
    var target := "/" + (seg + ".js");
    StemUnique(target, "/" + seg);
    NameUnique(target, seg);
  }

  /**
   * With a base path that ends in '/' and holds no '.', the default script is
   * named by its own part before the first '.': "main.js" gives "main".
   */
  lemma DefaultTargetName(path: string, script: string)
    requires IsSuffix("/", path) && '.' !in path && '/' !in script
    ensures NameOf(path + script) == Stem(script)
  {
    var stem := Stem(script);
    assert (path + script)[|path|..] == script;
    assert IsStem(path + stem, path + script);
    StemUnique(path + script, path + stem);
    assert path[|path| - 1] == '/';
    NameUnique(path + script, stem);
  }

  /**
   * A base path with a '.' before the script cuts the name short: with
   * "./public/" every default script is named "".
   */
  lemma RelativeBasePathNamesNothing(script: string)
    ensures NameOf("./public/" + script) == ""
  {
    var target := "./public/" + script;
    StemUnique(target, "");
    NameUnique(target, "");
  }
}

=== FILE: ScriptTag.dfy ===
/** The markup a loaded script is wrapped in before it is attached to a request. */
module ScriptTag {
  import opened Wrappers
  import opened JsString

  const OPEN := "<script id=\"injector-"
  const MIDDLE := "\" type=\"application/javascript\">"
  const CLOSE := "</script>"

  /** What `Tag(name, data)` starts with. */
  function Header(name: string): string
  {
    OPEN + name + MIDDLE
  }

  /** The contents of `tag` if it is a script tag for `name`, `None` otherwise. */
  function TagBody(name: string, tag: string): (body: Option<string>)
    ensures body.Some? ==> |Header(name)| + |CLOSE| <= |tag|
  {
    var h := Header(name);
    if |h| + |CLOSE| <= |tag| && tag[..|h|] == h && IsSuffix(CLOSE, tag)
    then Some(tag[|h|..|tag| - |CLOSE|])
    else None
  }

  /** `<script id="injector-NAME" type="application/javascript">DATA</script>` */
  function Tag(name: string, data: string): (tag: string)
    ensures tag != ""
  {
    Header(name) + data + CLOSE
  }

  /** Parsing a tag as a tag for its own name yields exactly its contents. */
  lemma BodyOfTag(name: string, data: string)
    ensures TagBody(name, Tag(name, data)) == Some(data)
  {
    var tag := Tag(name, data);
    assert tag[..|Header(name)|] == Header(name);
    assert tag[|Header(name)|..|tag| - |CLOSE|] == data;
  }

  /** A tag for `name` is exactly the tag built from `name` and its contents. */
  lemma TagOfBody(name: string, tag: string)
    requires TagBody(name, tag).Some?
    ensures tag == Tag(name, TagBody(name, tag).value)
  {
    var h := Header(name);
    assert tag == tag[..|h|] + tag[|h|..|tag| - |CLOSE|] + tag[|tag| - |CLOSE|..];
  }
}

=== FILE: Wrappers.dfy ===
/** Failure-carrying values shared by the other modules. */
module Wrappers {

  datatype Option<+T> = None | Some(value: T)

  datatype Result<+R, +E> = Success(value: R) | Failure(error: E)
}
